=== FILE: README.md ===
# EMR Studio notebook publisher, modelled in Dafny

The repository is an AWS CDK application that publishes Jupyter notebooks as a
static website. It has three pieces of logic, and this project models each of
them and proves properties about it:

- **The content router** (`content_router.dfy`). This is the CloudFront
  viewer-request function that the publisher stack embeds as inline
  JavaScript. A URI ending in `/` gets `index.html` appended. Otherwise, a URI
  with no `.` anywhere gets `/index.html` appended. Any other URI is kept. The
  function is modelled as `Rewrite` on strings, plus a `Handler` method that
  updates the `uri` field of a `Request` object in place.
- **The publisher stack** (`publisher_stack.dfy`). `EmrStudioPublisherStack`
  builds immutable configuration in straight-line code, so it is modelled as a
  function from `domain_name` and `certificate_arn` to a record. The record
  holds:
  - the imported certificate;
  - the distribution: origin, HTTPS redirect, router association, aliases;
  - the seeded CodeCommit repository;
  - the three pipeline stages and the artifacts they hand on.
- **The application entry point** (`app.dfy`). It maps the two optional
  context values to the stacks it declares.
- **The notebook transform `uniquify_images`** (`notebook.dfy`). The model
  starts from the list of cells that is already parsed. A `method` updates an
  `array` of cells in place, with a loop and a counter, as the Python does. It
  is proved against `Run`, a specification function. The lemmas then state,
  without the loop, what happens to each cell: which cells change, which
  number each renamed cell gets, that the names are distinct, what an
  exception leaves behind, and that nothing else changes.

Three helper modules support the notebook model:

- `json_values.dfy`: decoded JSON values and Python truthiness.
- `strings.dfy`: Python's `str.replace`, proved equal to joining the pieces
  of `split`, and the `03` format specification.
- `wrappers.dfy`: `Option` and `Result`.

In two places the code does something other than what its own comments
describe. The model follows the code:

- The router tests the whole URI for a dot, not just its last segment. So
  `/a.b/c` is returned unchanged. It does not become `/a.b/c/index.html`.
- `app.py` declares the publisher stack in every run. With a domain name and
  no certificate ARN, it declares both stacks in the same run. It does not
  stop after the certificate stack.

Two further behaviours worth knowing:

- The exported endpoint is always `https://` followed by CloudFront's own
  host name, even when a custom domain is bound.
- The certificate stack checks nothing about the domain name.

## Model

| member | source | states |
|---|---|---|
| `ContentRouter.Rewrite` | emr_studio_publisher/emr_studio_publisher_stack.py:68-82 | the input URI is a prefix of the result; the result never ends in `/` and always contains a `.`; a URI that already has that shape is returned unchanged |
| `ContentRouter.RewriteCases` | emr_studio_publisher/emr_studio_publisher_stack.py:73-81 | each of the three outcomes (append `index.html`, append `/index.html`, keep) happens exactly when its rule is the first that applies |
| `ContentRouter.RewriteFixedPoints` | emr_studio_publisher/emr_studio_publisher_stack.py:73-81 | a URI is left unchanged if and only if it does not end in `/` and contains a `.` anywhere |
| `ContentRouter.RewriteIdempotent` | emr_studio_publisher/emr_studio_publisher_stack.py:73-79 | rewriting a rewritten URI changes nothing more |
| `ContentRouter.RewriteSlashExamples` | emr_studio_publisher/emr_studio_publisher_stack.py:73-75 | `/docs/` becomes `/docs/index.html` and `/` becomes `/index.html` |
| `ContentRouter.RewriteNoDotExamples` | emr_studio_publisher/emr_studio_publisher_stack.py:76-78 | `/docs/page` becomes `/docs/page/index.html`, and the empty URI becomes `/index.html` |
| `ContentRouter.RewriteDotExamples` | emr_studio_publisher/emr_studio_publisher_stack.py:73-79 | `/docs/page.html`, `/a.b/c` and `/foo.` are kept as they are: a dot in an earlier segment, or a trailing dot, counts as an extension |
| `ContentRouter.Request.constructor` | emr_studio_publisher/emr_studio_publisher_stack.py:69-70 | the request carries the given method, URI, query string and headers |
| `ContentRouter.Event.constructor` | emr_studio_publisher/emr_studio_publisher_stack.py:68-69 | the event carries the request that the handler reads |
| `ContentRouter.Handler` | emr_studio_publisher/emr_studio_publisher_stack.py:68-82 | returns the same request object; its `uri` becomes `Rewrite` of the old URI; no other field changes |
| `PublisherStack.ImportCertificate` | emr_studio_publisher/emr_studio_publisher_stack.py:87-92 | a certificate is referenced exactly when an ARN is given (an identity test, so an empty ARN is imported too), carrying that ARN |
| `PublisherStack.FilterTruthy` | emr_studio_publisher/emr_studio_publisher_stack.py:112 | `filter(None, ...)`: the result is no longer than the input, and a string is in it exactly when it is present and non-empty in the input |
| `PublisherStack.WebsiteDistribution` | emr_studio_publisher/emr_studio_publisher_stack.py:95-114 | no alias when the domain name is missing or empty, otherwise exactly the one-element list of that name; the given certificate; the website bucket as origin; HTTPS redirect; `index.html` as root object; the router attached on viewer requests |
| `PublisherStack.SitePipeline` | emr_studio_publisher/emr_studio_publisher_stack.py:154-190 | exactly three stages named Source, Build, Deploy; Build reads exactly what Source writes (`SourceArtifact`), Deploy reads exactly what Build writes (`BuildArtifact`); every input has an earlier producer and no artifact has two; the source watches the repository on `main`; the deploy extracts into the given bucket |
| `PublisherStack.ThreeStageInputsProducedEarlier` | emr_studio_publisher/emr_studio_publisher_stack.py:154-190 | in the Source, Build, Deploy shape, every artifact a stage reads is written by an earlier stage |
| `PublisherStack.ThreeStageSingleProducer` | emr_studio_publisher/emr_studio_publisher_stack.py:154-190 | in the Source, Build, Deploy shape, no artifact is written by two stages |
| `PublisherStack.HandOffOrdersStages` | emr_studio_publisher/emr_studio_publisher_stack.py:154-190 | for any stage list where every input has an earlier producer and no artifact has two producers, no stage reads an artifact that it or a later stage writes |
| `PublisherStack.Synthesize` | emr_studio_publisher/emr_studio_publisher_stack.py:87-190 | the distribution uses the certificate imported from the given ARN, which exists exactly when an ARN is given; the distribution's aliases are exactly the domain name when it is present and non-empty, and none otherwise; the endpoint is `https://` plus the distribution's host name; the repository is seeded on `main`, the branch the source action watches; the deploy extracts into the distribution's origin; Build reads exactly `SourceArtifact`, which Source writes, and Deploy exactly `BuildArtifact`, which Build writes; every input has an earlier producer and no artifact has two |
| `PublisherStack.PipelineNeverConsumesForward` | emr_studio_publisher/emr_studio_publisher_stack.py:154-190 | whatever the parameters, no stage of the declared pipeline consumes an artifact produced by itself or a later stage |
| `App.Truthy` | app.py:19 | a context value is false exactly when it is missing or the empty string |
| `App.Synthesize` | app.py:14-34 | one or two stacks; the publisher stack is always declared, last, with both context values unchanged; the certificate stack is declared exactly when the domain name is truthy and the ARN is not, with that domain and region `us-east-1` |
| `App.DomainWithoutCertificateDeclaresBoth` | app.py:19-34 | a non-empty domain name without an ARN declares both stacks in one run, and the publisher then binds the domain with no certificate |
| `App.EmptyArnIsAbsentAndPresent` | app.py:19-34 | with an empty ARN, the certificate stack is declared (truthiness test) and the publisher still imports a certificate (identity test) |
| `App.TautologicalGuardDeclaresBoth` | app.py:28-34 | for `docs.example.com` without a certificate, the run declares the certificate stack and then the publisher stack |
| `App.SynthesizeIntended` | app.py:9-34 | with the guard `all(...) or not any(...)`, at most one stack per run; the publisher only for both values or neither; the certificate stack only for a domain without an ARN |
| `Strings.Replace` | code_bootstrap/site/convert.py:32 | `str.replace`: a string shorter than a non-empty pattern is returned unchanged; its full meaning is given by `ReplaceIsJoinOfSplit` and `ReplaceLength` |
| `Strings.ReplaceLength` | code_bootstrap/site/convert.py:32 | with an empty pattern, the replacement is inserted once per character and once at the end; a replacement as long as the pattern keeps the length |
| `Strings.ReplaceIsJoinOfSplit` | code_bootstrap/site/convert.py:32 | `str.replace` with a non-empty pattern equals joining, with the replacement, the pieces `str.split` cuts at the pattern |
| `Strings.SplitJoinRoundTrip` | code_bootstrap/site/convert.py:32 | splitting at a separator and joining back with it gives the original string |
| `Strings.ReplaceWithoutOccurrence` | code_bootstrap/site/convert.py:32 | a string in which the pattern never occurs is returned unchanged by `str.replace` |
| `Strings.Digits` | code_bootstrap/site/convert.py:29 | decimal digits of a counter with no leading zero (`0` alone for zero): one digit exactly below 10, at most three below 1000 and more from 1000 on; `DecimalValueOfDigits` proves they denote the counter |
| `Strings.ZeroPad3Decodes` | code_bootstrap/site/convert.py:29 | `int(f"{counter:03}")` is the counter again |
| `Strings.ZeroPad3` | code_bootstrap/site/convert.py:29 | `{counter:03}`: all digits; three wide below 1000; from 1000 on the plain digits, never truncated; no padding from 100 on |
| `Strings.ZeroPad3Injective` | code_bootstrap/site/convert.py:29 | different counters format to different strings |
| `Notebook.RewriteSource` | code_bootstrap/site/convert.py:31-34 | the comprehension succeeds exactly for a list of strings or a string, and then yields a list of as many lines as the list has, or as the string has characters; a `source` that is null, a boolean or a number raises `TypeError`, a list holding a non-string raises `AttributeError`, and a dict stops with `SourceIsObject`, where Python would iterate its keys (see Left out) |
| `JsonValues.FalsyValues` | code_bootstrap/site/convert.py:28 | `Truthy`, Python truthiness: a value is false exactly when it is `None`, `False`, `0`, `""`, `[]` or `{}` |
| `JsonValues.GetMeansPresent` | code_bootstrap/site/convert.py:26-28 | `Get`, `dict.get`: the stored value for a present key, `None` for a missing one, so a truthy result means the key is present |
| `Notebook.ImageNameShape` | code_bootstrap/site/convert.py:29 | `ImageName`, `f"image_{counter:03}.png"`: `image_`, at least three digits that denote the counter, then `.png`; thirteen characters below 1000 |
| `Notebook.MoveImageShape` | code_bootstrap/site/convert.py:30 | `MoveImage`, the `pop` and assignment: the cell keeps its keys and every field but `attachments`; the old `image.png` value sits under the new name and no longer under `image.png`; every other attachment is kept |
| `Notebook.Run` | code_bootstrap/site/convert.py:25-35 | the loop from a given cell and counter never changes the number of cells |
| `Notebook.UniquifyImages` | code_bootstrap/site/convert.py:22-37 | the in-place loop leaves the cell array as `Uniquify` of the old cells, and reports the exception when there is one |
| `Notebook.RunStep` | code_bootstrap/site/convert.py:25-35 | one loop pass over a cell that raises nothing replaces it by its processed form and adds one to the counter exactly for an image cell |
| `Notebook.RunRaises` | code_bootstrap/site/convert.py:28-34 | one loop pass over a failing cell raises that cell's error and leaves it part-way |
| `Notebook.StepCountShift` | code_bootstrap/site/convert.py:35 | after one pass, the new counter plus the image cells still ahead equals the old counter plus the image cells from the current one on |
| `Notebook.RunFinishesIff` | code_bootstrap/site/convert.py:25-35 | the loop from cell `i` runs to the end exactly when no cell from `i` on fails |
| `Notebook.RunKeepsDone` | code_bootstrap/site/convert.py:25 | cells before the current one are never touched again |
| `Notebook.RunProcessesBeforeFailure` | code_bootstrap/site/convert.py:24-35 | each cell before the first failure is processed with the counter plus the number of image cells before it |
| `Notebook.RunRaisesAtFailure` | code_bootstrap/site/convert.py:28-34 | when some cell from `i` on fails, the loop raises the error of the first such cell |
| `Notebook.RunAtFailure` | code_bootstrap/site/convert.py:28-34 | the first failing cell is left part-way, numbered with the counter plus the image cells before it |
| `Notebook.RunKeepsAfterFailure` | code_bootstrap/site/convert.py:25-34 | the cells after the first failing one are untouched |
| `Notebook.Uniquify` | code_bootstrap/site/convert.py:22-37 | the transform keeps the number of cells, and completes exactly when no cell raises |
| `Notebook.UniquifyProcessesEveryCell` | code_bootstrap/site/convert.py:24-35 | with no failure: same number and order of cells; non-markdown cells and markdown cells without a truthy `image.png` attachment are unchanged; the image cell at index `k` is renamed with the number of image cells before it |
| `Notebook.UniquifyStopsAtFirstFailure` | code_bootstrap/site/convert.py:25-35 | on the first failing cell: its own exception; earlier cells processed; that cell part-way, with its attachment already moved when the source is at fault; later cells untouched |
| `Notebook.ImageNumbersIncrease` | code_bootstrap/site/convert.py:24-35 | an earlier image cell gets a strictly smaller number than a later one |
| `Notebook.ImageNameInjective` | code_bootstrap/site/convert.py:29-30 | `image_NNN.png` differs from `image.png` and from the name of every other counter |
| `Notebook.RenamedImagesDistinct` | code_bootstrap/site/convert.py:29-35 | two different image cells receive different attachment names |
| `Notebook.RenamedCellShape` | code_bootstrap/site/convert.py:28-34 | a renamed cell keeps its keys and every field but `attachments` and `source`; `image.png` is gone and its value sits under `image_NNN.png`; every other attachment is kept |
| `Notebook.RenamedSourceLines` | code_bootstrap/site/convert.py:31-34 | a renamed cell's list of source lines keeps its length; each line is the old line with `(attachment:image.png)` replaced by `(attachment:image_NNN.png)`; a line without that reference is unchanged |
| `Notebook.StringSourceKeepsReference` | code_bootstrap/site/convert.py:30-33 | for a cell whose source is one string, `image.png` is renamed away but the rewritten lines join back to the old text, so a reference to `image.png` in it is left dangling |
| `Notebook.RewriteSourceIntended` | code_bootstrap/site/convert.py:31-34 | the intended rewrite: a string source stays a string whose text is the pieces between old references joined by the new reference; a list source is rewritten line by line as before |
| `Notebook.BareReferenceSource` | code_bootstrap/site/convert.py:31-33 | a source that is just `(attachment:image.png)` keeps that text as written, and becomes the new reference as intended |

## Left out

- Bucket declarations, asset bundling, the CodeBuild project and the disabled service-catalog helper (`emr_studio_publisher/emr_studio_publisher_stack.py:38-59, 144-149, 192-287`) are constant resource declarations or dead code. Only the website and log buckets appear, as the `Bucket` values the distribution and the deploy action refer to. The Build action names no project, and the asset and the helper leave no trace in the model.
- `cloudfront_certificate_stack.py` is represented only by the arguments it receives: the domain name and the region. The certificate request and its DNS validation run inside AWS.
- Checks done inside the CDK construct library, such as the `Distribution` construct's own validation of certificates and aliases, are not part of this model. That library is not part of the repository.
- `distribution.domain_name` is a host name that CloudFront assigns at deployment. It is a parameter of `PublisherStack.Synthesize`.
- Running the pipeline (stage success and failure, halting, S3 overwrite) happens inside CodePipeline and S3. Only the declared wiring is modelled.
- Context values are modelled as optional strings. Values of other JSON types from `cdk.json` are not modelled.
- For `convert.py`, argument parsing, file reading and writing, `json.loads`/`json.dumps` and `main()` are not modelled. The model starts from `data["cells"]`. A notebook without a `cells` key, or whose cells are not dicts, is therefore outside the model.
- Dicts are modelled as maps, which keep no key order. So where the renamed attachment key ends up in the written JSON is not modelled.
- Notebook.RewriteSource: a `source` that is a JSON object makes Python iterate its keys in file order. The model has no key order, so it stops with `SourceIsObject` instead.
- Notebook.RenamedSourceLines: states the per-line `str.replace` and the unchanged-line case. It does not prove that no `(attachment:image.png)` remains in a rewritten line. A source held as one string is covered by `Notebook.StringSourceKeepsReference` instead (see Findings).
- JSON numbers are modelled as mathematical reals. Python's distinction between `int` and `float`, and the non-finite values that `json.loads` accepts, are not modelled. Only their truthiness matters here.

## Findings

| source | as written | input that shows it | evidently intended | confidence | as-written member | corrected member |
|---|---|---|---|---|---|---|
| app.py:28 | `all([domain_name, certificate_arn]) or not all([domain_name, certificate_arn])` is always true, so the publisher stack is declared in every run | `domain_name=docs.example.com` with no `certificate_arn`: the certificate stack and the publisher stack are both declared | `all([...]) or not any([...])`, as the comment at lines 12-13 describes: the publisher stack only with both values or neither, and never in the same run as the certificate stack (lines 17-18) | medium, not executed | `App.TautologicalGuardDeclaresBoth` | `App.SynthesizeIntended` |
| code_bootstrap/site/convert.py:31-33 | for a source held as one string, the comprehension iterates its characters, so no line ever contains `(attachment:image.png)` and the text is kept, while line 30 has already renamed the attachment | a markdown cell with attachment `image.png` and `source` equal to the string `(attachment:image.png)`: the attachment becomes `image_000.png` and the text still says `(attachment:image.png)` | the reference rewritten in the text as well, as it is for a list of lines | medium, not executed | `Notebook.StringSourceKeepsReference` | `Notebook.RewriteSourceIntended` |

=== FILE: app.dfy ===
/**
 * The CDK application entry point: it reads the optional context values
 * `domain_name` and `certificate_arn` and decides which stacks to declare.
 */
module App {
  import opened Wrappers
  import PublisherStack

  const CertificateStackId: string := "CloudfrontCertificateStack"
  const PublisherStackId: string := "EmrStudioPublisherStack"
  /** CloudFront only accepts certificates issued in this region. */
  const CertificateRegion: string := "us-east-1"

  /** A stack the application declares, with the arguments it is given. */
  datatype StackDecl =
    | CertificateStack(id: string, certificateDomain: string, region: string)
    | PublisherStackDecl(id: string, domainName: Option<string>, certificateArn: Option<string>)

  /** Python truthiness of a context value: a missing value and "" are false. */
  predicate Truthy(v: Option<string>): (b: bool)
    // a missing value and the empty string are the only false ones
    ensures !b <==> v in {None, Some("")}
  {
    v.Some? && v.value != ""
  }

  /**
   * The stacks declared for the two context values, in declaration order.
   * The certificate stack is guarded by truthiness; the publisher guard,
   * `all([d, c]) or not all([d, c])`, holds for every input.
   */
  function Synthesize(domainName: Option<string>, certificateArn: Option<string>): (stacks: seq<StackDecl>)
    ensures 1 <= |stacks| <= 2
    // the publisher stack is always declared, last, with both values exactly as read
    ensures stacks[|stacks| - 1] == PublisherStackDecl(PublisherStackId, domainName, certificateArn)
    // the certificate stack is declared exactly when there is a domain name and no certificate ARN
    ensures |stacks| == 2 <==> Truthy(domainName) && !Truthy(certificateArn)
    ensures |stacks| == 2 ==> stacks[0] == CertificateStack(CertificateStackId, domainName.value, CertificateRegion)
  {
    var certificateStacks :=
      if Truthy(domainName) && !Truthy(certificateArn) then
        [CertificateStack(CertificateStackId, domainName.value, CertificateRegion)]
      else [];
    var both := Truthy(domainName) && Truthy(certificateArn);
    var publisherStacks :=
      if both || !both then [PublisherStackDecl(PublisherStackId, domainName, certificateArn)] else [];
    certificateStacks + publisherStacks
  }

  /**
   * A domain name without a certificate declares both stacks in one run, and
   * the publisher then binds the domain to its distribution with no certificate.
   */
  lemma DomainWithoutCertificateDeclaresBoth(domainName: string, distributionDomain: string)
    requires domainName != ""
    ensures |Synthesize(Some(domainName), None)| == 2
    ensures
      var stack := PublisherStack.Synthesize(Some(domainName), None, distributionDomain);
      stack.distribution.domainNames == [domainName] && stack.distribution.certificate.None?
  {
    var stack := PublisherStack.Synthesize(Some(domainName), None, distributionDomain);
    assert domainName in stack.distribution.domainNames;
  }

  /**
   * An empty certificate ARN counts as absent for the certificate stack but as
   * present for the import in the publisher stack: both happen in one run.
   */
  lemma EmptyArnIsAbsentAndPresent(domainName: string, distributionDomain: string)
    requires domainName != ""
    ensures |Synthesize(Some(domainName), Some(""))| == 2
    ensures PublisherStack.Synthesize(Some(domainName), Some(""), distributionDomain).certificate.Some?
  {
  }

  /** The same run as `docs.example.com` without a certificate: two stacks. */
  lemma TautologicalGuardDeclaresBoth()
    ensures Synthesize(Some("docs.example.com"), None) ==
      [CertificateStack(CertificateStackId, "docs.example.com", CertificateRegion),
       PublisherStackDecl(PublisherStackId, Some("docs.example.com"), None)]
  {
  }

  /**
   * The publisher guard as the comment above the context reads describe it:
   * `all([d, c]) or not any([d, c])`, that is, both values or neither.
   */
  function SynthesizeIntended(domainName: Option<string>, certificateArn: Option<string>): (stacks: seq<StackDecl>)
    // never both stacks in one run; none when only a certificate ARN is given
    ensures |stacks| <= 1
    ensures stacks == [] <==> !Truthy(domainName) && Truthy(certificateArn)
    // the publisher stack only for both values or neither, with the values as read
    ensures stacks == [PublisherStackDecl(PublisherStackId, domainName, certificateArn)] <==>
      Truthy(domainName) == Truthy(certificateArn)
    // the certificate stack, as before, for a domain name without a certificate ARN
    ensures |stacks| == 1 && stacks[0].CertificateStack? <==> Truthy(domainName) && !Truthy(certificateArn)
  {
    var certificateStacks :=
      if Truthy(domainName) && !Truthy(certificateArn) then
        [CertificateStack(CertificateStackId, domainName.value, CertificateRegion)]
      else [];
    var both := Truthy(domainName) && Truthy(certificateArn);
    var any := Truthy(domainName) || Truthy(certificateArn);
    var publisherStacks :=
      if both || !any then [PublisherStackDecl(PublisherStackId, domainName, certificateArn)] else [];
    assert Truthy(domainName) != Truthy(certificateArn) ==> publisherStacks == [];
    assert Truthy(domainName) == Truthy(certificateArn) ==> certificateStacks == [];
    assert publisherStacks == [] ==> certificateStacks + publisherStacks == certificateStacks;
    certificateStacks + publisherStacks
  }
}

=== FILE: content_router.dfy ===
/**
 * The CloudFront viewer-request function that the publisher stack attaches to
 * its distribution. It gives a static site "directory index" behaviour by
 * appending `index.html` to request URIs that do not name a file.
 */
module ContentRouter {

  const IndexDocument: string := "index.html"

  /** `uri.endsWith('/')` */
  predicate EndsWithSlash(uri: string) {
    |uri| > 0 && uri[|uri| - 1] == '/'
  }

  /** `uri.includes('.')` -- anywhere in the URI, not only in its last segment. */
  predicate HasDot(uri: string) {
    '.' in uri
  }

  /** A URI the function leaves alone: it does not end in '/' and it contains a '.'. */
  predicate NamesFile(uri: string) {
    !EndsWithSlash(uri) && HasDot(uri)
  }

  /**
   * The new value of `request.uri`. The rules are tried in order: a trailing
   * '/' gets `index.html`; otherwise a URI with no '.' gets `/index.html`;
   * anything else is kept. The result always names a file, only ever extends
   * the input, and a URI that already names a file is kept as it is.
   */
  function Rewrite(uri: string): (r: string)
    ensures uri <= r
    ensures NamesFile(r)
    ensures NamesFile(uri) ==> r == uri
  {
    if EndsWithSlash(uri) then
      assert (uri + IndexDocument)[|uri| + 5] == '.';
      uri + IndexDocument
    else if !HasDot(uri) then
      assert (uri + "/" + IndexDocument)[|uri| + 6] == '.';
      uri + "/" + IndexDocument
    else
      uri
  }

  /** Exactly the URIs that already name a file are fixed points. */
  lemma RewriteFixedPoints(uri: string)
    ensures Rewrite(uri) == uri <==> NamesFile(uri)
  {
  }

  /** Running the function on its own output changes nothing more. */
  lemma RewriteIdempotent(uri: string)
    ensures Rewrite(Rewrite(uri)) == Rewrite(uri)
  {
  }

  /**
   * The three outcomes and the inputs that select them, each as an
   * if-and-only-if: the rule order makes them mutually exclusive.
   */
  lemma RewriteCases(uri: string)
    ensures Rewrite(uri) == uri + "index.html" <==> EndsWithSlash(uri)
    ensures Rewrite(uri) == uri + "/index.html" <==> !EndsWithSlash(uri) && !HasDot(uri)
    ensures Rewrite(uri) == uri <==> !EndsWithSlash(uri) && HasDot(uri)
  {
  }

  /** Sample requests ending in '/': `index.html` is appended. */
  lemma RewriteSlashExamples()
    ensures Rewrite("/docs/") == "/docs/index.html"
    ensures Rewrite("/") == "/index.html"
  {
    assert EndsWithSlash("/docs/") && EndsWithSlash("/");
    assert "/docs/" + IndexDocument == "/docs/index.html";
    assert "/" + IndexDocument == "/index.html";
  }

  /** Sample requests with neither a trailing '/' nor a '.': `/index.html` is appended. */
  lemma RewriteNoDotExamples()
    ensures Rewrite("/docs/page") == "/docs/page/index.html"
    ensures Rewrite("") == "/index.html"
  {
    assert !EndsWithSlash("/docs/page") && !HasDot("/docs/page");
    assert !EndsWithSlash("") && !HasDot("");
    assert "/docs/page" + "/" + IndexDocument == "/docs/page/index.html";
    assert "" + "/" + IndexDocument == "/index.html";
  }

  /**
   * Sample requests with a dot: kept as they are, also when the dot is in an
   * earlier segment (`/a.b/c`) or is the last character (`/foo.`).
   */
  lemma RewriteDotExamples()
    ensures Rewrite("/docs/page.html") == "/docs/page.html"
    ensures Rewrite("/a.b/c") == "/a.b/c"
    ensures Rewrite("/foo.") == "/foo."
  {
    assert "/docs/page.html"[10] == '.';
    assert "/a.b/c"[2] == '.';
    assert "/foo."[4] == '.';
  }

  /** The request object CloudFront hands to the function; only `uri` is written. */
  class Request {
    var httpMethod: string
    var uri: string
    var querystring: map<string, string>
    var headers: map<string, string>

    constructor (httpMethod: string, uri: string, querystring: map<string, string>, headers: map<string, string>)
      ensures this.httpMethod == httpMethod && this.uri == uri
      ensures this.querystring == querystring && this.headers == headers
    {
      this.httpMethod := httpMethod;
      this.uri := uri;
      this.querystring := querystring;
      this.headers := headers;
    }
  }

  /** The viewer-request event; `event.request` is the request being served. */
  class Event {
    const request: Request

    constructor (request: Request)
      ensures this.request == request
    {
      this.request := request;
    }
  }

  /**
   * `handler(event)`: appends to `request.uri` in place and returns the same
   * request object. No other field of the request is touched.
   */
  method Handler(event: Event) returns (r: Request)
    modifies event.request`uri
    ensures r == event.request
    ensures r.uri == Rewrite(old(event.request.uri))
    ensures r.httpMethod == old(r.httpMethod) && r.querystring == old(r.querystring) && r.headers == old(r.headers)
  {
    var request := event.request;
    var uri := request.uri;
    if EndsWithSlash(uri) {
      request.uri := request.uri + IndexDocument;
    } else if !HasDot(uri) {
      request.uri := request.uri + "/" + IndexDocument;
    }
    r := request;
  }
}

=== FILE: json_values.dfy ===
/** The values Python's json module decodes a notebook into, and how Python tests them. */
module JsonValues {

  /** A decoded JSON value: `None`, `bool`, a number, `str`, `list` or `dict`. */
  datatype Json =
    | Null
    | Bool(b: bool)
    | Number(n: real)
    | Str(s: string)
    | Array(items: seq<Json>)
    | Object(fields: map<string, Json>)

  /** Python truthiness: None, False, 0, "", [] and {} are false, everything else is true. */
  predicate Truthy(v: Json) {
    match v
    case Null => false
    case Bool(b) => b
    case Number(n) => n != 0.0
    case Str(s) => s != ""
    case Array(items) => items != []
    case Object(fields) => fields != map[]
  }

  /** `d.get(key)`: the stored value, or `None` when the key is absent. */
  function Get(d: map<string, Json>, key: string): Json {
    if key in d then d[key] else Null
  }

  /** Exactly the six empty or zero values are false. */
  lemma FalsyValues(v: Json)
    ensures !Truthy(v) <==> v in {Null, Bool(false), Number(0.0), Str(""), Array([]), Object(map[])}
  {
  }

  /** A missing key reads as `None`, so a truthy result means the key is present. */
  lemma GetMeansPresent(d: map<string, Json>, key: string)
    ensures key in d ==> Get(d, key) == d[key]
    ensures key !in d ==> Get(d, key) == Null
    ensures Truthy(Get(d, key)) ==> key in d
  {
  }
}

=== FILE: notebook.dfy ===
/**
 * `uniquify_images`: walks the cells of a parsed Jupyter notebook in order
 * and gives every pasted `image.png` attachment of a markdown cell a name of
 * its own, `image_000.png`, `image_001.png`, ..., rewriting the cell's
 * markdown references to match. The cells list is updated in place.
 */
module Notebook {
  import opened Wrappers
  import opened JsonValues
  import Strings

  /** A notebook cell: the dict `json.loads` produced for it. */
  type Cell = map<string, Json>

  /** What Python raises part-way through the loop. */
  datatype PyError =
    | KeyError(key: string)  // `cell["source"]` on a cell that has none
    | AttributeError         // `.get` on attachments that are not a dict, `.replace` on a line that is not a string
    | TypeError              // iterating over a source that is null, a boolean or a number
    | SourceIsObject         // a source held as a dict, whose keys Python would iterate in file order

  /** The cells list after the loop, and whether the loop ran to the end or raised. */
  datatype Outcome = Finished(cells: seq<Cell>) | Raised(cells: seq<Cell>, error: PyError)

  const ImageKey: string := "image.png"

  /** `f"image_{counter:03}.png"` */
  function ImageName(counter: nat): string {
    "image_" + Strings.ZeroPad3(counter) + ".png"
  }

  /** `image_`, then at least three digits that denote the counter, then `.png`. */
  lemma ImageNameShape(counter: nat)
    ensures var r := ImageName(counter);
      && |r| >= 13 && r[..6] == "image_" && r[|r| - 4..] == ".png"
      && Strings.IsDigits(r[6..|r| - 4]) && Strings.DecimalValue(r[6..|r| - 4]) == counter
      && (counter < 1000 ==> |r| == 13)
  {
    var r := ImageName(counter);
    Strings.ZeroPad3Decodes(counter);
    assert r[6..|r| - 4] == Strings.ZeroPad3(counter);
  }

  /** The markdown reference to an attachment. */
  function AttachmentRef(name: string): string {
    "(attachment:" + name + ")"
  }

  predicate IsMarkdown(cell: Cell) {
    Get(cell, "cell_type") == Str("markdown")
  }

  /** The markdown cell's attachments are truthy but are not a dict: `.get` raises. */
  predicate AttachmentsNotDict(cell: Cell) {
    IsMarkdown(cell) && Truthy(Get(cell, "attachments")) && !Get(cell, "attachments").Object?
  }

  /** A markdown cell whose attachments dict holds a truthy `image.png`: the cells the loop renames. */
  predicate HasImage(cell: Cell) {
    IsMarkdown(cell) && Get(cell, "attachments").Object? &&
    Truthy(Get(Get(cell, "attachments").fields, ImageKey))
  }

  /** The comprehension over `cell["source"]` goes through: a list of strings, or a string. */
  predicate SourceRewritable(source: Json) {
    source.Str? || (source.Array? && forall i :: 0 <= i < |source.items| ==> source.items[i].Str?)
  }

  /** What the comprehension raises on a source it cannot go through. */
  function SourceError(source: Json): PyError
    requires !SourceRewritable(source)
  {
    match source
    case Array(_) => AttributeError
    case Object(_) => SourceIsObject
    case _ => TypeError
  }

  /**
   * The comprehension assigned to `cell["source"]`: `[t.replace("(attachment:image.png)", f"(attachment:{name})") for t in source]`.
   * A string source is iterated character by character, and no single
   * character holds the reference.
   */
  function RewriteSource(source: Json, name: string): (r: Result<Json, PyError>)
    ensures r.Success? <==> SourceRewritable(source)
    ensures r.Success? ==> r.value.Array?
    ensures r.Success? && source.Array? ==> |r.value.items| == |source.items|
    ensures r.Success? && source.Str? ==> |r.value.items| == |source.s|
    ensures r.Failure? ==> r.error == SourceError(source)
  {
    var pattern := AttachmentRef(ImageKey);
    var replacement := AttachmentRef(name);
    if !SourceRewritable(source) then Failure(SourceError(source))
    else if source.Array? then
      Success(Array(seq(|source.items|, i requires 0 <= i < |source.items| =>
        Str(Strings.Replace(source.items[i].s, pattern, replacement)))))
    else
      Success(Array(seq(|source.s|, i requires 0 <= i < |source.s| =>
        Str(Strings.Replace([source.s[i]], pattern, replacement)))))
  }

  /** `"".join(lines)`: the text of a list of strings. */
  function Text(lines: seq<Json>): string
    requires forall i :: 0 <= i < |lines| ==> lines[i].Str?
  {
    if lines == [] then "" else lines[0].s + Text(lines[1..])
  }

  /** The markdown text a source holds, whether it is one string or a list of lines. */
  function SourceText(source: Json): string
    requires SourceRewritable(source)
  {
    if source.Str? then source.s else Text(source.items)
  }

  /** `cell["attachments"][name] = cell["attachments"].pop("image.png")`. */
  function MoveImage(cell: Cell, name: string): Cell
    requires HasImage(cell)
  {
    var attachments := cell["attachments"].fields;
    cell["attachments" := Object((attachments - {ImageKey})[name := attachments[ImageKey]])]
  }

  /**
   * The cell keeps its keys; the image now sits under `name`, and no longer
   * under `image.png` unless that is `name`; every other field and attachment is kept.
   */
  lemma MoveImageShape(cell: Cell, name: string)
    requires HasImage(cell)
    ensures var r := MoveImage(cell, name);
      && r.Keys == cell.Keys
      && (forall key :: key in cell && key != "attachments" ==> r[key] == cell[key])
      && r["attachments"].Object?
      && name in r["attachments"].fields
      && r["attachments"].fields[name] == cell["attachments"].fields[ImageKey]
      && (name != ImageKey ==> ImageKey !in r["attachments"].fields)
      && (forall key :: key != ImageKey && key != name ==>
            (key in r["attachments"].fields <==> key in cell["attachments"].fields))
      && (forall key :: key != ImageKey && key != name && key in cell["attachments"].fields ==>
            r["attachments"].fields[key] == cell["attachments"].fields[key])
  {
  }

  /**
   * The `for cell in data["cells"]` loop from cell `i` on, with `counter` images renamed
   * so far. Cells before `i` are already done; a cell is replaced once it has
   * been changed, and an exception stops the loop with the list as it is.
   */
  function Run(cells: seq<Cell>, i: nat, counter: nat): (r: Outcome)
    requires i <= |cells|
    ensures |r.cells| == |cells|
    decreases |cells| - i
  {
    if i == |cells| then Finished(cells)
    else
      var cell := cells[i];
      if !IsMarkdown(cell) then Run(cells, i + 1, counter)
      else
        var attachments := Get(cell, "attachments");
        if !Truthy(attachments) then Run(cells, i + 1, counter)
        else if !attachments.Object? then Raised(cells, AttributeError)
        else if !Truthy(Get(attachments.fields, ImageKey)) then Run(cells, i + 1, counter)
        else
          var name := ImageName(counter);
          var moved := MoveImage(cell, name);
          if "source" !in moved then Raised(cells[i := moved], KeyError("source"))
          else
            match RewriteSource(moved["source"], name)
            case Failure(e) => Raised(cells[i := moved], e)
            case Success(source) => Run(cells[i := moved["source" := source]], i + 1, counter + 1)
  }

  /** `uniquify_images` on the parsed `data["cells"]`. */
  function Uniquify(cells: seq<Cell>): (r: Outcome)
    ensures |r.cells| == |cells|
    // the loop runs to the end exactly when no cell fails
    ensures r.Finished? <==> forall k :: 0 <= k < |cells| ==> !Fails(cells[k])
  {
    RunFinishesIff(cells, 0, 0);
    assert cells[0..] == cells;
    Run(cells, 0, 0)
  }

  /** `uniquify_images` without the JSON read and write: the cells are updated in place. */
  method UniquifyImages(cells: array<Cell>) returns (error: Option<PyError>)
    modifies cells
    ensures Uniquify(old(cells[..])) == if error.None? then Finished(cells[..]) else Raised(cells[..], error.value)
  {
    var counter: nat := 0;
    for i := 0 to cells.Length
      invariant Run(cells[..], i, counter) == Uniquify(old(cells[..]))
    {
      ghost var before := cells[..];
      var cell := cells[i];
      if Get(cell, "cell_type") != Str("markdown") {
        continue;
      }
      var attachments := Get(cell, "attachments");
      if !Truthy(attachments) {
        continue;
      }
      if !attachments.Object? {
        return Some(AttributeError);
      }
      if !Truthy(Get(attachments.fields, ImageKey)) {
        continue;
      }
      var filename := ImageName(counter);
      var image := attachments.fields[ImageKey];
      var renamed := attachments.fields - {ImageKey};
      renamed := renamed[filename := image];
      cell := cell["attachments" := Object(renamed)];
      cells[i] := cell;
      if "source" !in cell {
        return Some(KeyError("source"));
      }
      var source := RewriteSource(cell["source"], filename);
      if source.Failure? {
        return Some(source.error);
      }
      cells[i] := cell["source" := source.value];
      assert cells[..] == before[i := cell["source" := source.value]];
      assert cell == MoveImage(before[i], filename);
      counter := counter + 1;
    }
    return None;
  }

  // ---------------------------------------------------------------------
  // What the loop does, cell by cell, stated without the loop.

  /** The loop raises on this cell. */
  predicate Fails(cell: Cell) {
    AttachmentsNotDict(cell) ||
    (HasImage(cell) && ("source" !in cell || !SourceRewritable(cell["source"])))
  }

  /** The exception a failing cell raises. */
  function ErrorOf(cell: Cell): PyError
    requires Fails(cell)
  {
    if AttachmentsNotDict(cell) then AttributeError
    else if "source" !in cell then KeyError("source")
    else SourceError(cell["source"])
  }

  /** An image cell after the loop body has run on it with number `n`. */
  function Renamed(cell: Cell, n: nat): Cell
    requires HasImage(cell) && !Fails(cell)
  {
    var name := ImageName(n);
    MoveImage(cell, name)["source" := RewriteSource(cell["source"], name).value]
  }

  /** A cell that does not fail, after the loop: renamed with number `n` if it has an image, else as it was. */
  function Processed(cell: Cell, n: nat): Cell
    requires !Fails(cell)
  {
    if HasImage(cell) then Renamed(cell, n) else cell
  }

  /** A failing cell as the exception leaves it: the attachment is already moved when the source is at fault. */
  function PartiallyProcessed(cell: Cell, n: nat): Cell
    requires Fails(cell)
  {
    if AttachmentsNotDict(cell) then cell else MoveImage(cell, ImageName(n))
  }

  /** How many of the cells have an image to rename. */
  function CountImages(cells: seq<Cell>): nat {
    if cells == [] then 0 else (if HasImage(cells[0]) then 1 else 0) + CountImages(cells[1..])
  }

  /** The offset in `cells` of the first failing cell, or `|cells|` when none fails. */
  function FirstFailure(cells: seq<Cell>): (f: nat)
    ensures f <= |cells|
    ensures f < |cells| ==> Fails(cells[f])
    ensures forall k :: 0 <= k < f ==> !Fails(cells[k])
  {
    if cells == [] || Fails(cells[0]) then 0 else 1 + FirstFailure(cells[1..])
  }

  lemma {:induction false} CountImagesAppend(a: seq<Cell>, b: seq<Cell>)
    ensures CountImages(a + b) == CountImages(a) + CountImages(b)
  {
    if a == [] {
      assert a + b == b;
    } else {
      assert (a + b)[1..] == a[1..] + b;
      CountImagesAppend(a[1..], b);
    }
  }

  /** The cells after the loop body has run on a cell `i` that does not fail. */
  function StepCells(cells: seq<Cell>, i: nat, counter: nat): seq<Cell>
    requires i < |cells| && !Fails(cells[i])
  {
    cells[i := Processed(cells[i], counter)]
  }

  /** The counter after the loop body has run on a cell that does not fail. */
  function StepCounter(cell: Cell, counter: nat): nat {
    counter + if HasImage(cell) then 1 else 0
  }

  /** One pass of the loop body over a cell that does not fail. */
  lemma RunStep(cells: seq<Cell>, i: nat, counter: nat)
    requires i < |cells| && !Fails(cells[i])
    ensures Run(cells, i, counter) == Run(StepCells(cells, i, counter), i + 1, StepCounter(cells[i], counter))
  {
    var cell := cells[i];
    if !HasImage(cell) {
      assert cells[i := cell] == cells;
    } else {
      var name := ImageName(counter);
      assert MoveImage(cell, name)["source"] == cell["source"];
    }
  }

  /** One pass of the loop body over a cell that fails. */
  lemma RunRaises(cells: seq<Cell>, i: nat, counter: nat)
    requires i < |cells| && Fails(cells[i])
    ensures Run(cells, i, counter) == Raised(cells[i := PartiallyProcessed(cells[i], counter)], ErrorOf(cells[i]))
  {
  }

  /** What a step leaves for the rest of the loop: the same cells after it and the same first failure. */
  lemma StepPreserves(cells: seq<Cell>, i: nat, counter: nat)
    requires i < |cells| && !Fails(cells[i])
    ensures StepCells(cells, i, counter)[i + 1..] == cells[i + 1..]
    ensures FirstFailure(cells[i..]) == 1 + FirstFailure(cells[i + 1..])
  {
    assert cells[i..][0] == cells[i];
    assert cells[i..][1..] == cells[i + 1..];
  }

  /** The step's counter plus the images it has not reached yet is the old counter plus the images from `i`. */
  lemma StepCountShift(cells: seq<Cell>, i: nat, counter: nat, k: nat)
    requires i < k <= |cells| && !Fails(cells[i])
    ensures StepCounter(cells[i], counter) + CountImages(StepCells(cells, i, counter)[i + 1..k])
      == counter + CountImages(cells[i..k])
  {
    assert StepCells(cells, i, counter)[i + 1..k] == cells[i + 1..k];
    assert cells[i..k][0] == cells[i];
    assert cells[i..k][1..] == cells[i + 1..k];
  }

  /** The loop from cell `i` runs to the end exactly when no cell from `i` on fails. */
  lemma {:induction false} RunFinishesIff(cells: seq<Cell>, i: nat, counter: nat)
    requires i <= |cells|
    ensures Run(cells, i, counter).Finished? <==> i + FirstFailure(cells[i..]) == |cells|
    decreases |cells| - i
  {
    if i < |cells| {
      assert cells[i..][0] == cells[i];
      if Fails(cells[i]) {
        RunRaises(cells, i, counter);
      } else {
        RunStep(cells, i, counter);
        StepPreserves(cells, i, counter);
        RunFinishesIff(StepCells(cells, i, counter), i + 1, StepCounter(cells[i], counter));
      }
    }
  }

  /** Cells the loop has already passed are not touched again. */
  lemma {:induction false} RunKeepsDone(cells: seq<Cell>, i: nat, counter: nat, k: nat)
    requires k < i <= |cells|
    ensures Run(cells, i, counter).cells[k] == cells[k]
    decreases |cells| - i
  {
    if i < |cells| {
      if Fails(cells[i]) {
        RunRaises(cells, i, counter);
      } else {
        RunStep(cells, i, counter);
        RunKeepsDone(StepCells(cells, i, counter), i + 1, StepCounter(cells[i], counter), k);
      }
    }
  }

  /** Each cell before the first failure is processed with the counter plus the images before it. */
  lemma {:induction false} RunProcessesBeforeFailure(cells: seq<Cell>, i: nat, counter: nat, k: nat, n: nat)
    requires i <= |cells| && i <= k < i + FirstFailure(cells[i..])
    requires n == counter + CountImages(cells[i..k])
    ensures k < |cells| && !Fails(cells[k])
    ensures Run(cells, i, counter).cells[k] == Processed(cells[k], n)
    decreases |cells| - i
  {
    assert cells[i..][k - i] == cells[k];
    assert cells[i..][0] == cells[i];
    RunStep(cells, i, counter);
    StepPreserves(cells, i, counter);
    var next := StepCells(cells, i, counter);
    if k == i {
      assert cells[i..i] == [];
      RunKeepsDone(next, i + 1, StepCounter(cells[i], counter), i);
    } else {
      StepCountShift(cells, i, counter, k);
      RunProcessesBeforeFailure(next, i + 1, StepCounter(cells[i], counter), k, n);
    }
  }

  /** The loop stops at the first failing cell with that cell's own error. */
  lemma {:induction false} RunRaisesAtFailure(cells: seq<Cell>, i: nat, counter: nat)
    requires i <= |cells|
    requires i + FirstFailure(cells[i..]) < |cells|
    ensures Run(cells, i, counter).Raised?
    ensures Run(cells, i, counter).error == ErrorOf(cells[i + FirstFailure(cells[i..])])
    decreases |cells| - i
  {
    assert cells[i..][0] == cells[i];
    if Fails(cells[i]) {
      RunRaises(cells, i, counter);
    } else {
      RunStep(cells, i, counter);
      StepPreserves(cells, i, counter);
      RunRaisesAtFailure(StepCells(cells, i, counter), i + 1, StepCounter(cells[i], counter));
    }
  }

  /** The first failing cell is left part-way, numbered with the counter plus the images before it. */
  lemma {:induction false} RunAtFailure(cells: seq<Cell>, i: nat, counter: nat, f: nat, n: nat)
    requires i <= f < |cells| && f == i + FirstFailure(cells[i..])
    requires n == counter + CountImages(cells[i..f])
    ensures Run(cells, i, counter).cells[f] == PartiallyProcessed(cells[f], n)
    decreases |cells| - i
  {
    assert cells[i..][0] == cells[i];
    if Fails(cells[i]) {
      assert f == i && cells[i..i] == [];
      RunRaises(cells, i, counter);
    } else {
      RunStep(cells, i, counter);
      StepPreserves(cells, i, counter);
      StepCountShift(cells, i, counter, f);
      var next := StepCells(cells, i, counter);
      assert next[f] == next[i + 1..][f - i - 1] == cells[i + 1..][f - i - 1] == cells[f];
      RunAtFailure(next, i + 1, StepCounter(cells[i], counter), f, n);
    }
  }

  /** The cells after the first failing one are untouched. */
  lemma {:induction false} RunKeepsAfterFailure(cells: seq<Cell>, i: nat, counter: nat, k: nat)
    requires i <= |cells|
    requires i + FirstFailure(cells[i..]) < k < |cells|
    ensures Run(cells, i, counter).cells[k] == cells[k]
    decreases |cells| - i
  {
    assert cells[i..][0] == cells[i];
    if Fails(cells[i]) {
      RunRaises(cells, i, counter);
    } else {
      RunStep(cells, i, counter);
      StepPreserves(cells, i, counter);
      RunKeepsAfterFailure(StepCells(cells, i, counter), i + 1, StepCounter(cells[i], counter), k);
    }
  }

  /**
   * When no cell fails: the list keeps its length and order, every cell
   * without an image is unchanged, and the cell at index `k` with an image is
   * renamed with the number of image cells before it, so the counter starts
   * at 0 and goes up by one per renamed cell.
   */
  lemma UniquifyProcessesEveryCell(cells: seq<Cell>)
    requires forall k :: 0 <= k < |cells| ==> !Fails(cells[k])
    ensures Uniquify(cells).Finished?
    ensures |Uniquify(cells).cells| == |cells|
    ensures forall k :: 0 <= k < |cells| && !HasImage(cells[k]) ==> Uniquify(cells).cells[k] == cells[k]
    ensures forall k :: 0 <= k < |cells| && HasImage(cells[k]) ==>
      Uniquify(cells).cells[k] == Renamed(cells[k], CountImages(cells[..k]))
  {
    assert cells[0..] == cells;
    RunFinishesIff(cells, 0, 0);
    forall k | 0 <= k < |cells|
      ensures Uniquify(cells).cells[k] == Processed(cells[k], CountImages(cells[..k]))
    {
      assert cells[0..k] == cells[..k];
      RunProcessesBeforeFailure(cells, 0, 0, k, CountImages(cells[..k]));
    }
  }

  /**
   * When cell `f` is the first that fails: the loop raises that cell's error;
   * cells before it are processed as in a full run, cell `f` is left
   * part-way, and the cells after it are untouched.
   */
  lemma UniquifyStopsAtFirstFailure(cells: seq<Cell>, f: nat)
    requires f < |cells| && Fails(cells[f])
    requires forall k :: 0 <= k < f ==> !Fails(cells[k])
    ensures Uniquify(cells).Raised? && Uniquify(cells).error == ErrorOf(cells[f])
    ensures forall k :: 0 <= k < f ==> Uniquify(cells).cells[k] == Processed(cells[k], CountImages(cells[..k]))
    ensures Uniquify(cells).cells[f] == PartiallyProcessed(cells[f], CountImages(cells[..f]))
    ensures forall k :: f < k < |cells| ==> Uniquify(cells).cells[k] == cells[k]
  {
    assert cells[0..] == cells;
    FirstFailureIsFirst(cells, f);
    assert cells[0..f] == cells[..f];
    RunRaisesAtFailure(cells, 0, 0);
    RunAtFailure(cells, 0, 0, f, CountImages(cells[..f]));
    forall k | 0 <= k < f
      ensures Run(cells, 0, 0).cells[k] == Processed(cells[k], CountImages(cells[..k]))
    {
      assert cells[0..k] == cells[..k];
      RunProcessesBeforeFailure(cells, 0, 0, k, CountImages(cells[..k]));
    }
    forall k | f < k < |cells|
      ensures Run(cells, 0, 0).cells[k] == cells[k]
    {
      RunKeepsAfterFailure(cells, 0, 0, k);
    }
  }

  /** A cell that fails after only non-failing cells is the first failure. */
  lemma {:induction false} FirstFailureIsFirst(cells: seq<Cell>, f: nat)
    requires f < |cells| && Fails(cells[f])
    requires forall k :: 0 <= k < f ==> !Fails(cells[k])
    ensures FirstFailure(cells) == f
  {
    if f > 0 {
      FirstFailureIsFirst(cells[1..], f - 1);
    }
  }

  /** Two image cells get different numbers, the earlier one the smaller. */
  lemma ImageNumbersIncrease(cells: seq<Cell>, j: nat, k: nat)
    requires j < k < |cells| && HasImage(cells[j])
    ensures CountImages(cells[..j]) < CountImages(cells[..k])
  {
    assert cells[..k] == cells[..j] + cells[j..k];
    CountImagesAppend(cells[..j], cells[j..k]);
    assert cells[j..k][0] == cells[j];
  }

  /** Distinct counters give distinct file names, none of them `image.png`. */
  lemma ImageNameInjective(a: nat, b: nat)
    ensures ImageName(a) != ImageKey
    ensures ImageName(a) == ImageName(b) ==> a == b
  {
    assert ImageName(a)[5] == '_';
    assert ImageKey[5] == '.';
    if ImageName(a) == ImageName(b) {
      var pa := Strings.ZeroPad3(a);
      var pb := Strings.ZeroPad3(b);
      assert |pa| == |pb|;
      assert pa == ImageName(a)[6..6 + |pa|];
      assert pb == ImageName(b)[6..6 + |pb|];
      Strings.ZeroPad3Injective(a, b);
    }
  }

  /** In a full run, the attachment names given to two different image cells differ. */
  lemma RenamedImagesDistinct(cells: seq<Cell>, j: nat, k: nat)
    requires j < k < |cells| && HasImage(cells[j]) && HasImage(cells[k])
    ensures ImageName(CountImages(cells[..j])) != ImageName(CountImages(cells[..k]))
  {
    ImageNumbersIncrease(cells, j, k);
    ImageNameInjective(CountImages(cells[..j]), CountImages(cells[..k]));
  }

  /**
   * A renamed cell: only `attachments` and `source` change; the `image.png`
   * attachment now sits under the new name and no longer under its old one,
   * every other attachment is kept; the source keeps its number of lines,
   * and a line without the old reference is kept as it is.
   */
  lemma RenamedCellShape(cell: Cell, n: nat)
    requires HasImage(cell) && !Fails(cell)
    ensures var r := Renamed(cell, n);
      && r.Keys == cell.Keys
      && (forall key :: key in cell && key != "attachments" && key != "source" ==> r[key] == cell[key])
      && r["attachments"].Object?
      && ImageKey !in r["attachments"].fields
      && ImageName(n) in r["attachments"].fields
      && r["attachments"].fields[ImageName(n)] == cell["attachments"].fields[ImageKey]
      && (forall key :: key != ImageKey && key != ImageName(n) ==>
            (key in r["attachments"].fields <==> key in cell["attachments"].fields))
      && (forall key :: key != ImageKey && key != ImageName(n) && key in cell["attachments"].fields ==>
            r["attachments"].fields[key] == cell["attachments"].fields[key])
  {
  }

  /** In a renamed cell's list-of-lines source, each line is rewritten in place; one without the reference is kept. */
  lemma RenamedSourceLines(cell: Cell, n: nat, i: nat)
    requires HasImage(cell) && !Fails(cell)
    requires cell["source"].Array? && i < |cell["source"].items|
    ensures var lines := Renamed(cell, n)["source"].items;
      && |lines| == |cell["source"].items|
      && lines[i] == Str(Strings.Replace(cell["source"].items[i].s, AttachmentRef(ImageKey), AttachmentRef(ImageName(n))))
    ensures (forall p: nat :: !Strings.OccursAt(cell["source"].items[i].s, AttachmentRef(ImageKey), p)) ==>
      Renamed(cell, n)["source"].items[i] == cell["source"].items[i]
  {
    var line := cell["source"].items[i].s;
    if forall p: nat :: !Strings.OccursAt(line, AttachmentRef(ImageKey), p) {
      Strings.ReplaceWithoutOccurrence(line, AttachmentRef(ImageKey), AttachmentRef(ImageName(n)));
    }
  }

  // ---------------------------------------------------------------------
  // A source held as one string: the comprehension walks its characters.

  /** Each character on its own, as a list of one-character strings, joins back to the text. */
  lemma {:induction false} TextOfCharacters(text: string, pat: string, rep: string)
    requires |pat| > 1
    ensures var lines := seq(|text|, i requires 0 <= i < |text| => Str(Strings.Replace([text[i]], pat, rep)));
      (forall i :: 0 <= i < |lines| ==> lines[i].Str?) && Text(lines) == text
    decreases |text|
  {
    var lines := seq(|text|, i requires 0 <= i < |text| => Str(Strings.Replace([text[i]], pat, rep)));
    if text != [] {
      TextOfCharacters(text[1..], pat, rep);
      var rest := seq(|text[1..]|, i requires 0 <= i < |text[1..]| => Str(Strings.Replace([text[1..][i]], pat, rep)));
      assert lines[1..] == rest;
      assert lines[0].s == [text[0]];
      assert text == [text[0]] + text[1..];
    }
  }

  /**
   * An image cell whose source is one string: the attachment is renamed, but
   * the rewritten source joins back to the old text, so a reference to
   * `image.png` in it now names an attachment that no longer exists.
   */
  lemma StringSourceKeepsReference(cell: Cell, n: nat)
    requires HasImage(cell) && !Fails(cell) && cell["source"].Str?
    ensures ImageKey !in Renamed(cell, n)["attachments"].fields
    ensures SourceRewritable(Renamed(cell, n)["source"])
    ensures SourceText(Renamed(cell, n)["source"]) == SourceText(cell["source"])
  {
    ImageNameInjective(n, n);
    TextOfCharacters(cell["source"].s, AttachmentRef(ImageKey), AttachmentRef(ImageName(n)));
  }

  /**
   * The rewrite as intended: a string source has its references replaced in
   * the text itself; a list of lines is handled as before. The new text is
   * the pieces between the old references, joined by the new reference.
   */
  function RewriteSourceIntended(source: Json, name: string): (r: Result<Json, PyError>)
    ensures r.Success? <==> SourceRewritable(source)
    ensures !source.Str? ==> r == RewriteSource(source, name)
    ensures source.Str? ==> (
      && r.Success? && r.value.Str?
      && Strings.Join(AttachmentRef(ImageKey), Strings.Split(source.s, AttachmentRef(ImageKey))) == source.s
      && r.value.s == Strings.Join(AttachmentRef(name), Strings.Split(source.s, AttachmentRef(ImageKey))))
  {
    if source.Str? then
      Strings.SplitJoinRoundTrip(source.s, AttachmentRef(ImageKey));
      Strings.ReplaceIsJoinOfSplit(source.s, AttachmentRef(ImageKey), AttachmentRef(name));
      Success(Str(Strings.Replace(source.s, AttachmentRef(ImageKey), AttachmentRef(name))))
    else
      RewriteSource(source, name)
  }

  /** A source that is just the reference: as written it is kept, as intended it names the new attachment. */
  lemma BareReferenceSource(name: string)
    ensures SourceText(RewriteSource(Str(AttachmentRef(ImageKey)), name).value) == AttachmentRef(ImageKey)
    ensures RewriteSourceIntended(Str(AttachmentRef(ImageKey)), name) == Success(Str(AttachmentRef(name)))
  {
    var pat := AttachmentRef(ImageKey);
    var rep := AttachmentRef(name);
    TextOfCharacters(pat, pat, rep);
    assert pat <= pat && pat[|pat|..] == [];
    assert Strings.Replace([], pat, rep) == [];
    assert Strings.Replace(pat, pat, rep) == rep + Strings.Replace([], pat, rep) == rep;
  }
}

=== FILE: publisher_stack.dfy ===
/**
 * The configuration that `EmrStudioPublisherStack` declares: an optional
 * imported certificate, a CloudFront distribution in front of the website
 * bucket, a CodeCommit repository seeded with the site sources, and a
 * three-stage CodePipeline (Source, Build, Deploy) that hands an artifact
 * from each stage to the next. Construction is straight-line, so the stack is
 * a function from its two optional parameters to a configuration record.
 */
module PublisherStack {
  import opened Wrappers

  /** The two buckets the stack declares; their own settings are not modelled. */
  datatype Bucket = LogBucket | WebsiteBucket

  /** `acm.Certificate.from_certificate_arn(self, "domain-cert", arn)`: a reference, nothing is issued. */
  datatype Certificate = ImportedCertificate(constructId: string, arn: string)

  datatype ViewerProtocolPolicy = RedirectToHttps

  datatype FunctionEventType = ViewerRequest

  /** The content router function attached to the distribution's default behaviour. */
  datatype FunctionAssociation = FunctionAssociation(functionId: string, eventType: FunctionEventType)

  datatype Distribution = Distribution(
    origin: Bucket,
    viewerProtocolPolicy: ViewerProtocolPolicy,
    functionAssociations: seq<FunctionAssociation>,
    defaultRootObject: string,
    logBucket: Bucket,
    logFilePrefix: string,
    loggingEnabled: bool,
    domainNames: seq<string>,
    certificate: Option<Certificate>)

  /** The CodeCommit repository, created with its first commit on `seedBranch` taken from the site asset. */
  datatype Repository = Repository(name: string, seedBranch: string)

  /** A named pipeline artifact. */
  datatype Artifact = Artifact(name: string)

  /** The three pipeline actions, each with the artifacts it reads and writes. */
  datatype Action =
    | CodeCommitSource(actionName: string, repository: string, branch: string, output: Artifact)
    | CodeBuild(actionName: string, input: Artifact, outputs: seq<Artifact>)
    | S3Deploy(actionName: string, bucket: Bucket, extract: bool, input: Artifact)
  {
    function Inputs(): seq<Artifact> {
      match this
      case CodeCommitSource(_, _, _, _) => []
      case CodeBuild(_, input, _) => [input]
      case S3Deploy(_, _, _, input) => [input]
    }

    function Outputs(): seq<Artifact> {
      match this
      case CodeCommitSource(_, _, _, output) => [output]
      case CodeBuild(_, _, outputs) => outputs
      case S3Deploy(_, _, _, _) => []
    }
  }

  datatype Stage = Stage(name: string, actions: seq<Action>)

  /** Everything the stack declares that the model keeps. */
  datatype Stack = Stack(
    certificate: Option<Certificate>,
    distribution: Distribution,
    endpoint: string,
    repository: Repository,
    pipeline: seq<Stage>)

  const Branch: string := "main"
  const SourceArtifact: Artifact := Artifact("SourceArtifact")
  const BuildArtifact: Artifact := Artifact("BuildArtifact")

  // ---------------------------------------------------------------------
  // Pipeline wiring, stated over any list of stages.

  /** The artifacts all actions of a stage read. */
  function StageInputs(actions: seq<Action>): seq<Artifact> {
    if actions == [] then [] else actions[0].Inputs() + StageInputs(actions[1..])
  }

  /** The artifacts all actions of a stage write. */
  function StageOutputs(actions: seq<Action>): seq<Artifact> {
    if actions == [] then [] else actions[0].Outputs() + StageOutputs(actions[1..])
  }

  function StageNames(stages: seq<Stage>): seq<string> {
    if stages == [] then [] else [stages[0].name] + StageNames(stages[1..])
  }

  /** Every artifact a stage reads is written by a strictly earlier stage. */
  predicate InputsProducedEarlier(stages: seq<Stage>) {
    forall k, a :: 0 <= k < |stages| && a in StageInputs(stages[k].actions) ==>
      exists j :: 0 <= j < k && a in StageOutputs(stages[j].actions)
  }

  /** No artifact is written by two different stages. */
  predicate SingleProducer(stages: seq<Stage>) {
    forall i, k, a :: 0 <= i < k < |stages| && a in StageOutputs(stages[i].actions) ==>
      a !in StageOutputs(stages[k].actions)
  }

  /** No stage reads an artifact that it or a later stage writes. */
  predicate NoForwardConsumption(stages: seq<Stage>) {
    forall j, k, a :: 0 <= j <= k < |stages| && a in StageInputs(stages[j].actions) ==>
      a !in StageOutputs(stages[k].actions)
  }

  /**
   * When every input has an earlier producer and producers are unique, no
   * stage can depend on itself or on a stage after it: the artifact hand-off
   * alone orders the stages.
   */
  lemma HandOffOrdersStages(stages: seq<Stage>)
    requires InputsProducedEarlier(stages)
    requires SingleProducer(stages)
    ensures NoForwardConsumption(stages)
  {
    forall j, k, a | 0 <= j <= k < |stages| && a in StageInputs(stages[j].actions)
      ensures a !in StageOutputs(stages[k].actions)
    {
      var i :| 0 <= i < j && a in StageOutputs(stages[i].actions);
      assert i < k;
    }
  }

  /** Source writes `SourceArtifact`, Build reads it and writes `BuildArtifact`, Deploy reads that. */
  predicate ThreeStageShape(stages: seq<Stage>) {
    && |stages| == 3
    && StageInputs(stages[0].actions) == [] && StageOutputs(stages[0].actions) == [SourceArtifact]
    && StageInputs(stages[1].actions) == [SourceArtifact] && StageOutputs(stages[1].actions) == [BuildArtifact]
    && StageInputs(stages[2].actions) == [BuildArtifact] && StageOutputs(stages[2].actions) == []
  }

  /** In that shape every input has an earlier producer. */
  lemma ThreeStageInputsProducedEarlier(stages: seq<Stage>)
    requires ThreeStageShape(stages)
    ensures InputsProducedEarlier(stages)
  {
    forall k, a | 0 <= k < |stages| && a in StageInputs(stages[k].actions)
      ensures exists j :: 0 <= j < k && a in StageOutputs(stages[j].actions)
    {
      if k == 1 {
        assert a in StageOutputs(stages[0].actions);
      } else {
        assert k == 2 && a in StageOutputs(stages[1].actions);
      }
    }
  }

  /** In that shape no artifact has two producers. */
  lemma ThreeStageSingleProducer(stages: seq<Stage>)
    requires ThreeStageShape(stages)
    ensures SingleProducer(stages)
  {
    assert |SourceArtifact.name| != |BuildArtifact.name|;
    forall i, k, a | 0 <= i < k < |stages| && a in StageOutputs(stages[i].actions)
      ensures a !in StageOutputs(stages[k].actions)
    {
      if i == 0 {
        assert a == SourceArtifact;
        assert k == 1 || k == 2;
      } else {
        assert i == 1 && k == 2;
      }
    }
  }

  /**
   * `list(filter(None, xs))`: exactly the values that are present and non-empty,
   * and no more of them than `xs` holds, so a one-element list gives an exact result.
   */
  function FilterTruthy(xs: seq<Option<string>>): (r: seq<string>)
    ensures |r| <= |xs|
    ensures forall s :: s in r <==> Some(s) in xs && s != ""
  {
    if xs == [] then []
    else
      var rest := FilterTruthy(xs[1..]);
      assert xs == [xs[0]] + xs[1..];
      if xs[0].Some? && xs[0].value != "" then [xs[0].value] + rest else rest
  }

  /** `certificate_arn is not None`: the certificate is imported exactly when an ARN is given, even an empty one. */
  function ImportCertificate(certificateArn: Option<string>): (c: Option<Certificate>)
    ensures c.Some? <==> certificateArn.Some?
    ensures c.Some? ==> c.value.arn == certificateArn.value
  {
    if certificateArn.Some? then Some(ImportedCertificate("domain-cert", certificateArn.value)) else None
  }

  /** `cloudfront.Distribution(...)`: the distribution in front of the website bucket. */
  function WebsiteDistribution(domainName: Option<string>, certificate: Option<Certificate>): (d: Distribution)
    // a missing or empty domain name binds no alias, any other binds exactly itself
    ensures d.domainNames == [] <==> domainName.None? || domainName.value == ""
    ensures domainName.Some? && domainName.value != "" ==> d.domainNames == [domainName.value]
    ensures d.certificate == certificate
    // the site is served from the website bucket, over HTTPS, through the content router
    ensures d.origin == WebsiteBucket
    ensures d.viewerProtocolPolicy == RedirectToHttps
    ensures d.defaultRootObject == "index.html"
    ensures d.functionAssociations == [FunctionAssociation("index_redirect", ViewerRequest)]
  {
    Distribution(
      origin := WebsiteBucket,
      viewerProtocolPolicy := RedirectToHttps,
      functionAssociations := [FunctionAssociation("index_redirect", ViewerRequest)],
      defaultRootObject := "index.html",
      logBucket := LogBucket,
      logFilePrefix := "logs/cloudfront/",
      loggingEnabled := true,
      domainNames := FilterTruthy([domainName]),
      certificate := certificate)
  }

  /** `codepipeline.Pipeline(..., stages=[...])`: Source, Build and Deploy, each handing its artifact to the next. */
  function SitePipeline(repository: Repository, site: Bucket): (stages: seq<Stage>)
    ensures |stages| == 3
    ensures StageNames(stages) == ["Source", "Build", "Deploy"]
    ensures InputsProducedEarlier(stages)
    ensures SingleProducer(stages)
    ensures StageInputs(stages[1].actions) == StageOutputs(stages[0].actions) == [SourceArtifact]
    ensures StageInputs(stages[2].actions) == StageOutputs(stages[1].actions) == [BuildArtifact]
    // the source action watches the given repository on `main`
    ensures stages[0].actions == [CodeCommitSource("Source", repository.name, Branch, SourceArtifact)]
    // the deploy action unpacks the build output into the given bucket
    ensures stages[2].actions == [S3Deploy("WebsiteDeploy", site, true, BuildArtifact)]
  {
    var source := CodeCommitSource("Source", repository.name, Branch, SourceArtifact);
    var build := CodeBuild("Build", SourceArtifact, [BuildArtifact]);
    var deploy := S3Deploy("WebsiteDeploy", site, true, BuildArtifact);
    var stages := [Stage("Source", [source]), Stage("Build", [build]), Stage("Deploy", [deploy])];
    assert StageOutputs(stages[0].actions) == [SourceArtifact];
    assert StageOutputs(stages[1].actions) == [BuildArtifact];
    assert StageOutputs(stages[2].actions) == [];
    assert StageInputs(stages[0].actions) == [];
    assert StageInputs(stages[1].actions) == [SourceArtifact];
    assert StageInputs(stages[2].actions) == [BuildArtifact];
    assert StageNames(stages[2..]) == ["Deploy"];
    assert StageNames(stages[1..]) == ["Build", "Deploy"];
    assert ThreeStageShape(stages);
    ThreeStageInputsProducedEarlier(stages);
    ThreeStageSingleProducer(stages);
    stages
  }

  /**
   * `EmrStudioPublisherStack(domain_name=..., certificate_arn=...)`.
   * `distributionDomain` stands for `distribution.domain_name`, the host name
   * CloudFront assigns at deployment.
   */
  function Synthesize(domainName: Option<string>, certificateArn: Option<string>, distributionDomain: string): (s: Stack)
    // the distribution presents the certificate imported from the given ARN
    ensures s.distribution.certificate == s.certificate
    ensures s.certificate == ImportCertificate(certificateArn)
    ensures s.certificate.Some? <==> certificateArn.Some?
    // the distribution answers to the domain name exactly when it is present and non-empty
    ensures domainName.None? || domainName.value == "" ==> s.distribution.domainNames == []
    ensures domainName.Some? && domainName.value != "" ==> s.distribution.domainNames == [domainName.value]
    ensures s.endpoint == "https://" + distributionDomain
    // three stages in order, each reading only what an earlier stage wrote
    ensures |s.pipeline| == 3 && StageNames(s.pipeline) == ["Source", "Build", "Deploy"]
    ensures InputsProducedEarlier(s.pipeline) && SingleProducer(s.pipeline)
    // Build reads exactly what Source writes, Deploy exactly what Build writes
    ensures StageInputs(s.pipeline[1].actions) == StageOutputs(s.pipeline[0].actions) == [SourceArtifact]
    ensures StageInputs(s.pipeline[2].actions) == StageOutputs(s.pipeline[1].actions) == [BuildArtifact]
    // the repository is seeded on the branch that the source action watches
    ensures s.repository.seedBranch == Branch
    ensures s.pipeline[0].actions == [CodeCommitSource("Source", s.repository.name, s.repository.seedBranch, SourceArtifact)]
    // the deploy action unpacks the build output into the distribution's origin
    ensures s.pipeline[2].actions == [S3Deploy("WebsiteDeploy", s.distribution.origin, true, BuildArtifact)]
  {
    var certificate := ImportCertificate(certificateArn);
    var distribution := WebsiteDistribution(domainName, certificate);
    var repository := Repository("windycity-notebooks", Branch);
    Stack(certificate, distribution, "https://" + distributionDomain, repository, SitePipeline(repository, WebsiteBucket))
  }

  /** Whatever the parameters, no stage of the declared pipeline reads what it or a later stage writes. */
  lemma PipelineNeverConsumesForward(domainName: Option<string>, certificateArn: Option<string>, distributionDomain: string)
    ensures NoForwardConsumption(Synthesize(domainName, certificateArn, distributionDomain).pipeline)
  {
    HandOffOrdersStages(Synthesize(domainName, certificateArn, distributionDomain).pipeline);
  }
}

=== FILE: strings.dfy ===
/**
 * The two pieces of Python's string library that the notebook transform uses:
 * `str.replace` without a count, and the format specification `03` applied to
 * a non-negative integer. `str.split` and `str.join` serve as an independent
 * reference definition of `str.replace`.
 */
module Strings {

  /** `pat` occurs in `s` starting at index `i`. */
  predicate OccursAt(s: string, pat: string, i: nat) {
    i + |pat| <= |s| && s[i..i + |pat|] == pat
  }

  /**
   * `s.replace(pat, rep)`: scanning left to right, every occurrence of `pat`
   * that does not overlap an earlier one is replaced by `rep`. With an empty
   * `pat`, Python puts `rep` before every character and once at the end.
   */
  function Replace(s: string, pat: string, rep: string): (r: string)
    // a string shorter than the pattern holds no occurrence
    ensures pat != [] && |s| < |pat| ==> r == s
    decreases |s|
  {
    if pat == [] then
      if s == [] then rep else rep + [s[0]] + Replace(s[1..], pat, rep)
    else if pat <= s then rep + Replace(s[|pat|..], pat, rep)
    else if s == [] then []
    else [s[0]] + Replace(s[1..], pat, rep)
  }

  /** `s.split(sep)` for a non-empty separator (Python raises ValueError on an empty one). */
  function Split(s: string, sep: string): (parts: seq<string>)
    requires sep != []
    ensures |parts| >= 1
    ensures |parts| == 1 ==> !(sep <= s)
    decreases |s|
  {
    if sep <= s then [[]] + Split(s[|sep|..], sep)
    else if s == [] then [[]]
    else
      var rest := Split(s[1..], sep);
      [[s[0]] + rest[0]] + rest[1..]
  }

  /** `sep.join(parts)`. */
  function Join(sep: string, parts: seq<string>): string {
    if parts == [] then []
    else if |parts| == 1 then parts[0]
    else parts[0] + sep + Join(sep, parts[1..])
  }

  /** Prefixing the first piece prefixes the joined string. */
  lemma JoinPrefixFirst(prefix: string, sep: string, parts: seq<string>)
    requires |parts| >= 1
    ensures Join(sep, [prefix + parts[0]] + parts[1..]) == prefix + Join(sep, parts)
  {
    if |parts| > 1 {
      assert ([prefix + parts[0]] + parts[1..])[1..] == parts[1..];
      assert (prefix + parts[0]) + sep + Join(sep, parts[1..])
          == prefix + (parts[0] + sep + Join(sep, parts[1..]));
    }
  }

  /** The step of `ReplaceIsJoinOfSplit` where `s` starts with the pattern. */
  lemma ReplaceIsJoinOfSplitAtMatch(s: string, pat: string, rep: string)
    requires pat != [] && pat <= s
    requires Replace(s[|pat|..], pat, rep) == Join(rep, Split(s[|pat|..], pat))
    ensures Replace(s, pat, rep) == Join(rep, Split(s, pat))
  {
    var rest := Split(s[|pat|..], pat);
    assert Replace(s, pat, rep) == rep + Replace(s[|pat|..], pat, rep);
    assert Split(s, pat) == [[]] + rest;
    assert ([[]] + rest)[1..] == rest;
    assert Join(rep, [[]] + rest) == [] + rep + Join(rep, rest);
  }

  /** The step of `ReplaceIsJoinOfSplit` where `s` does not start with the pattern. */
  lemma ReplaceIsJoinOfSplitPastChar(s: string, pat: string, rep: string)
    requires pat != [] && !(pat <= s) && s != []
    requires Replace(s[1..], pat, rep) == Join(rep, Split(s[1..], pat))
    ensures Replace(s, pat, rep) == Join(rep, Split(s, pat))
  {
    var rest := Split(s[1..], pat);
    assert Split(s, pat) == [[s[0]] + rest[0]] + rest[1..];
    assert Replace(s, pat, rep) == [s[0]] + Replace(s[1..], pat, rep);
    JoinPrefixFirst([s[0]], rep, rest);
  }

  /** Replacing every occurrence is joining, with the replacement, the pieces between occurrences. */
  lemma {:induction false} ReplaceIsJoinOfSplit(s: string, pat: string, rep: string)
    requires pat != []
    ensures Replace(s, pat, rep) == Join(rep, Split(s, pat))
    decreases |s|
  {
    if pat <= s {
      ReplaceIsJoinOfSplit(s[|pat|..], pat, rep);
      ReplaceIsJoinOfSplitAtMatch(s, pat, rep);
    } else if s != [] {
      ReplaceIsJoinOfSplit(s[1..], pat, rep);
      ReplaceIsJoinOfSplitPastChar(s, pat, rep);
    }
  }

  /** The empty pattern matches `|s| + 1` times; a replacement as long as the pattern keeps the length. */
  lemma {:induction false} ReplaceLength(s: string, pat: string, rep: string)
    ensures pat == [] ==> |Replace(s, pat, rep)| == |s| + (|s| + 1) * |rep|
    ensures pat != [] && |rep| == |pat| ==> |Replace(s, pat, rep)| == |s|
    decreases |s|
  {
    if pat == [] {
      if s != [] {
        ReplaceLength(s[1..], pat, rep);
        assert |s| + (|s| + 1) * |rep| == |rep| + 1 + (|s| - 1) + |s| * |rep|;
      }
    } else if pat <= s {
      ReplaceLength(s[|pat|..], pat, rep);
    } else if s != [] {
      ReplaceLength(s[1..], pat, rep);
    }
  }

  /** Replacing a pattern by itself changes nothing. */
  lemma {:induction false} ReplaceBySelf(s: string, pat: string)
    requires pat != []
    ensures Replace(s, pat, pat) == s
    decreases |s|
  {
    if pat <= s {
      ReplaceBySelf(s[|pat|..], pat);
      assert s == pat + s[|pat|..];
    } else if s != [] {
      ReplaceBySelf(s[1..], pat);
      assert s == [s[0]] + s[1..];
    }
  }

  /** Splitting and joining back with the same separator gives the original string. */
  lemma SplitJoinRoundTrip(s: string, sep: string)
    requires sep != []
    ensures Join(sep, Split(s, sep)) == s
  {
    ReplaceIsJoinOfSplit(s, sep, sep);
    ReplaceBySelf(s, sep);
  }

  /** A string in which the pattern never occurs is returned unchanged. */
  lemma {:induction false} ReplaceWithoutOccurrence(s: string, pat: string, rep: string)
    requires pat != []
    requires forall i: nat :: !OccursAt(s, pat, i)
    ensures Replace(s, pat, rep) == s
    decreases |s|
  {
    if pat <= s {
      assert OccursAt(s, pat, 0);
    } else if s != [] {
      forall i: nat
        ensures !OccursAt(s[1..], pat, i)
      {
        assert !OccursAt(s, pat, i + 1);
        if i + |pat| <= |s[1..]| {
          assert s[1..][i..i + |pat|] == s[i + 1..i + 1 + |pat|];
        }
      }
      ReplaceWithoutOccurrence(s[1..], pat, rep);
      assert s == [s[0]] + s[1..];
    }
  }

  // ---------------------------------------------------------------------
  // format(n, "03"): decimal digits, left-padded with zeros to width three.

  predicate IsDigit(c: char) { '0' <= c <= '9' }

  predicate IsDigits(s: string) { forall i :: 0 <= i < |s| ==> IsDigit(s[i]) }

  function DigitChar(d: nat): char
    requires d < 10
  {
    (d + '0' as int) as char
  }

  function DigitValue(c: char): nat
    requires IsDigit(c)
  {
    c as int - '0' as int
  }

  /** The shortest decimal representation of `n` (what `str(n)` gives). */
  function Digits(n: nat): (r: string)
    ensures |r| >= 1 && IsDigits(r)
    // no leading zero: `0` is the only representation that starts with '0'
    ensures n > 0 ==> r[0] != '0'
    ensures n == 0 ==> r == "0"
    ensures n < 10 <==> |r| == 1
    ensures n < 1000 ==> |r| <= 3
    ensures n >= 1000 ==> |r| > 3
  {
    if n < 10 then [DigitChar(n)] else Digits(n / 10) + [DigitChar(n % 10)]
  }

  /** `k` zero characters. */
  function Zeros(k: nat): (r: string)
    ensures |r| == k && IsDigits(r)
  {
    seq(k, _ => '0')
  }

  /** `f"{n:03}"`: the decimal digits of `n`, left-padded with '0' to at least three characters. */
  function ZeroPad3(n: nat): (r: string)
    ensures IsDigits(r) && |r| >= 3
    // three is a minimum width: shorter numbers are padded, longer ones are never truncated
    ensures n < 1000 ==> |r| == 3
    ensures n >= 1000 ==> r == Digits(n)
    // a number that already has three digits gets no padding
    ensures n >= 100 ==> r[0] != '0'
  {
    var digits := Digits(n);
    if |digits| < 3 then Zeros(3 - |digits|) + digits else digits
  }

  /** The number a string of decimal digits denotes (what `int(s)` gives). */
  function DecimalValue(s: string): nat
    requires IsDigits(s)
  {
    if s == [] then 0 else DecimalValue(s[..|s| - 1]) * 10 + DigitValue(s[|s| - 1])
  }

  lemma {:induction false} DecimalValueOfDigits(n: nat)
    ensures DecimalValue(Digits(n)) == n
  {
    if n >= 10 {
      DecimalValueOfDigits(n / 10);
      var d := Digits(n);
      assert d[..|d| - 1] == Digits(n / 10);
    }
  }

  lemma {:induction false} DecimalValueIgnoresLeadingZeros(k: nat, s: string)
    requires IsDigits(s)
    ensures IsDigits(Zeros(k) + s)
    ensures DecimalValue(Zeros(k) + s) == DecimalValue(s)
    decreases |s|, k
  {
    var t := Zeros(k) + s;
    if s == [] {
      assert t == Zeros(k);
      if k > 0 {
        assert t[..|t| - 1] == Zeros(k - 1) + [];
        DecimalValueIgnoresLeadingZeros(k - 1, []);
      }
    } else {
      assert t[..|t| - 1] == Zeros(k) + s[..|s| - 1];
      DecimalValueIgnoresLeadingZeros(k, s[..|s| - 1]);
    }
  }

  /** The padded form still denotes `n`: `int(f"{n:03}") == n`. */
  lemma ZeroPad3Decodes(n: nat)
    ensures DecimalValue(ZeroPad3(n)) == n
  {
    var digits := Digits(n);
    DecimalValueOfDigits(n);
    if |digits| < 3 {
      DecimalValueIgnoresLeadingZeros(3 - |digits|, digits);
    }
  }

  /** Distinct counters format to distinct strings. */
  lemma ZeroPad3Injective(a: nat, b: nat)
    requires ZeroPad3(a) == ZeroPad3(b)
    ensures a == b
  {
    ZeroPad3Decodes(a);
    ZeroPad3Decodes(b);
  }
}

=== FILE: wrappers.dfy ===
/** Optional values and fallible results, shared by the other modules. */
module Wrappers {

  /** Python's `None` versus a present value. */
  datatype Option<+T> = None | Some(value: T)

  /** A computation that either yields a value or raises an error. */
  datatype Result<+T, +E> = Success(value: T) | Failure(error: E)
}
